=== FILE: README.md ===
# Emerald plugin discovery, modelled in Dafny

Emerald is a Gradle plugin. For every file in its `compilerPlugin` configuration
it opens the file as a zip archive and looks for the service-provider entry
`META-INF/services/com.sun.source.util.Plugin`. That entry follows the
service-provider convention of the JAR File Specification. Each line of the entry
names a class. For each such class the plugin reads the class file with ASM and
takes the constant loaded by the last `ldc` in its `getName()` method (method
descriptor `()Ljava/lang/String;`, section 4.3.3 of the Java Virtual Machine
Specification; `ldc`, section 6.5). Each name found becomes a compiler argument
`-Xplugin:<name>` on every `JavaCompile` task.

The model covers the pure logic under that plumbing:

- `results.dfy` (`Results`): `Option` (its `None` is Java's `null`), `Result`,
  and the three unchecked exceptions that can escape the name-collecting loop.
- `class_files.dfy` (`ClassFiles`): a parsed class is a sequence of methods.
  Each method has a name, a descriptor and instructions. An instruction is
  `Ldc(StrConst s | NonStrConst)` or `Other`.
- `archives.dfy` (`Archives`): an artifact is a map from absolute entry paths
  to entries, or a file that cannot be opened. An entry is text already split
  into lines, a parsed class, or an entry whose opening raises `IOException`.
- `name_finder.dfy` (`NameFinder`): `NameFinder.visitMethod` and
  `Visitor.visitLdcInsn` as one fold over the methods. The fold is proved
  equal to a description that does not use the visitor.
- `emerald_plugin.dfy` (`EmeraldPlugin`): `getClassFilePath`, `getServicesFile`,
  `getPluginStreams`, `toInputStream`, `getPluginName`, the loop over the
  resolved files, and the forming of `-Xplugin:` arguments.

How the code handles failures, as modelled:

- Caught `IOException`s collapse to values:
  - a file whose opening raises `IOException` (for example one the build may
    not read) contributes nothing;
  - a descriptor that cannot be opened contributes nothing;
  - a class entry that is missing or cannot be read gives the name `""`.
- A class that parses, with no literal in `getName`, gives the finder's unset
  name, `null`. This is a different value from `""`. Java string concatenation
  turns it into the argument `-Xplugin:null`.
- The `catch` clauses only handle `IOException`. Any other exception ends the
  whole pass (`Err`). Three such exceptions are modelled:
  - the `(String)` cast meets a non-String constant;
  - `ClassReader` is given an entry that is text, not a class file;
  - `Files.lines` fails to decode a class entry found at the descriptor path.
    A class file starts with 0xCAFEBABE, which is not UTF-8.

## Model

| member | source | states |
|---|---|---|
| NameFinder.VisitMethodsFlattens | src/main/java/org/transparent/emerald/NameFinder.java:14-25 | Visiting a class gives the same result as visiting only the concatenated code of the methods named `getName` with descriptor `()Ljava/lang/String;`. Code of every other method never affects the result. |
| NameFinder.IgnoredMethod | src/main/java/org/transparent/emerald/NameFinder.java:17-24 | Adding or removing a method that is not `getName()Ljava/lang/String;` (another name, or `getName` with another descriptor) never changes the finder's outcome. |
| NameFinder.FindNameOutcomes | src/main/java/org/transparent/emerald/NameFinder.java:7-37 | The finder fails with the cast's exception exactly when inspected code loads a non-String constant. The name stays unset (null) exactly when inspected code loads no constant, which includes the case where no method matches. |
| NameFinder.FindNameLiteral | src/main/java/org/transparent/emerald/NameFinder.java:36-37 | The finder reports `s` exactly when no non-String constant is loaded and the last load-constant instruction of the inspected code loads the string `s`. |
| NameFinder.VisitCodeFails | src/main/java/org/transparent/emerald/NameFinder.java:36-37 | Within one inspected method, the visit fails exactly when some `ldc` loads a non-String constant. It is a failure, not a skipped instruction. |
| NameFinder.VisitCodeLast | src/main/java/org/transparent/emerald/NameFinder.java:36-37 | When no cast fails, the last `ldc` overwrites whatever name came before it. |
| NameFinder.VisitCodeOutcome | src/main/java/org/transparent/emerald/NameFinder.java:35-39 | Visiting one run of code fails with the cast's exception exactly when it loads a non-String constant. Otherwise it gives the string of its last load, or, when it loads nothing, the name it started from. |
| NameFinder.OtherIgnored | src/main/java/org/transparent/emerald/NameFinder.java:27-40 | Inserting a non-load instruction anywhere in inspected code leaves the outcome unchanged. |
| NameFinder.SingleLiteral | src/main/java/org/transparent/emerald/NameFinder.java:36-37 | In a class whose only inspected method is a `getName()Ljava/lang/String;` with code of one literal load followed by non-load instructions, the name is exactly that literal, whatever other methods (constructors, helpers) the class has. |
| NameFinder.LastLdc | src/main/java/org/transparent/emerald/NameFinder.java:36-37 | Gives the position of the last load-constant instruction, so no later instruction loads a constant. Gives -1 only when the code loads nothing. |
| EmeraldPlugin.ReplaceDots | src/main/java/org/transparent/emerald/EmeraldPlugin.java:93 | Keeps the length. Every '.' becomes '/'. Every other character stays in its position. |
| EmeraldPlugin.ClassFilePath | src/main/java/org/transparent/emerald/EmeraldPlugin.java:91-95 | The path starts with "/" and ends with ".class". Its length is the name's length plus 7. Its middle contains no '.' and holds the name with dots turned into slashes, position by position. |
| EmeraldPlugin.ClassFilePathRoundTrip | src/main/java/org/transparent/emerald/EmeraldPlugin.java:91-95 | For a name without '/' (every binary class name), the class name read back from its path is the name itself. |
| EmeraldPlugin.ClassFilePathCollides | src/main/java/org/transparent/emerald/EmeraldPlugin.java:93 | Two names that differ only where one has '.' and the other '/' get the same entry path. |
| EmeraldPlugin.CandidateName | src/main/java/org/transparent/emerald/EmeraldPlugin.java:97-119 | A missing or unreadable class entry gives `""`. A parsed class gives exactly the finder's outcome. A text entry is rejected by `ClassReader` and ends the pass. |
| EmeraldPlugin.MapNamesSpec | src/main/java/org/transparent/emerald/EmeraldPlugin.java:47-50 | Mapping `getPluginName` over the streams succeeds exactly when every stream's name succeeds. It then gives one name per stream, in order. |
| EmeraldPlugin.ArtifactNamesSpec | src/main/java/org/transparent/emerald/EmeraldPlugin.java:44-89 | A file whose opening raises `IOException`, an archive without the service-provider entry, and a descriptor that cannot be opened each contribute nothing. A class entry at the descriptor path fails to decode and ends the pass. Otherwise the artifact fails exactly when one of its candidates fails, and else contributes one name per descriptor line, blank and comment-looking lines included, in line order: the name of that line's class in this archive. |
| EmeraldPlugin.SingleLineDescriptor | src/main/java/org/transparent/emerald/EmeraldPlugin.java:80-84 | A one-line descriptor contributes exactly that line's name. |
| EmeraldPlugin.CollectNamesAppend | src/main/java/org/transparent/emerald/EmeraldPlugin.java:43-55 | Collecting over two runs of artifacts gives the two name lists concatenated, in order. A failure in the first run ends the pass. |
| EmeraldPlugin.CollectNamesSpec | src/main/java/org/transparent/emerald/EmeraldPlugin.java:43-55 | The pass fails exactly when some artifact fails. Otherwise the list holds exactly one name per candidate of every artifact, in artifact-then-line order. |
| EmeraldPlugin.CollectNamesLength | src/main/java/org/transparent/emerald/EmeraldPlugin.java:43-55 | A successful pass yields exactly as many names as the readable text descriptors have lines in all. |
| EmeraldPlugin.SkippedArtifact | src/main/java/org/transparent/emerald/EmeraldPlugin.java:44-54 | An artifact that contributes nothing (its opening raises `IOException`, no descriptor, or a descriptor that cannot be opened) does not change the names collected from the artifacts around it. It does not stop later artifacts. |
| EmeraldPlugin.CollectNamesLoop | src/main/java/org/transparent/emerald/EmeraldPlugin.java:43-55 | The loop that adds each artifact's names to one list, and stops at the first escaping exception, computes the same result as the functional description. |
| EmeraldPlugin.CompilerArgs | src/main/java/org/transparent/emerald/EmeraldPlugin.java:57-62 | There is exactly one argument per name, in name-list order. Each argument is "-Xplugin:" followed by the name as Java prints it. |
| EmeraldPlugin.CompilerArgsRoundTrip | src/main/java/org/transparent/emerald/EmeraldPlugin.java:61 | Each argument starts with "-Xplugin:". The rest of the argument is the printed name. |
| EmeraldPlugin.CompilerArgsAppend | src/main/java/org/transparent/emerald/EmeraldPlugin.java:57-62 | The arguments of two concatenated name lists are the two argument lists concatenated. |
| EmeraldPlugin.CollapsedNamesReachCompiler | src/main/java/org/transparent/emerald/EmeraldPlugin.java:61 | An unset name and the literal "null" give the same argument, "-Xplugin:null". A collapsed failure `""` gives a bare "-Xplugin:". |
| EmeraldPlugin.ThreeArtifacts | src/main/java/org/transparent/emerald/EmeraldPlugin.java:43-62 | Example with three artifacts in order: one with a literal-returning plugin, one without a descriptor, one whose `getName` has no literal. They give the names ["X", null] and the arguments "-Xplugin:X", "-Xplugin:null". |

## Left out

- Gradle wiring is left out because it is host-framework plumbing. This covers `apply`, registering the `compilerPlugin` configuration, `afterEvaluate`, `extendsFrom`, `resolve()`, and adding arguments to `JavaCompile` tasks. The model takes the resolved files as a sequence in the order `resolve()` returns them, and keeps only the `-Xplugin:` string mapping.
- Opening the zip file system, `Files.exists`, `Files.newInputStream` and try-with-resources closing are I/O. An archive is a map from absolute entry path to entry. The zip file system resolves the relative descriptor path against "/".
- Path normalisation by the zip file system (collapsing repeated '/', dropping a trailing '/') is not modelled. Entries are looked up by the exact path `getClassFilePath` builds.
- `Files.lines` line splitting and charset decoding are I/O. A text descriptor arrives already split. Decoding fails only for a class entry at the descriptor path. A failure while reading other text part-way through is not modelled.
- An `IOException` from closing the file system after names were added is not modelled. The code catches it, and the names stay in the list.
- Exceptions other than the three modelled ones are not modelled. These include the zip provider's non-`IOException` failures at opening, each of which ends the pass in the code: `ProviderNotFoundException` for a directory or a non-zip file not named *.jar or *.zip, `FileSystemNotFoundException` for a missing file, and, on JDK 8, `ZipError` for a corrupt *.jar or *.zip (later JDKs raise an `IOException` there, which the model's `OpenFails` covers). `InvalidPathException` can come from an unusual line. `OpenFails` stands only for an `IOException` at opening.
- ASM's binary decoding and visitor dispatch come from a foreign library. A class arrives already parsed. `ldc`, `ldc_w` and `ldc2_w` are one `Ldc` case. Every non-String constant kind is one opaque `NonStrConst`, with no numeric or floating-point content.
- `printStackTrace` logging is left out. Only the value each path produces is modelled.
- The streams that `toInputStream` opens are never closed by the code. Resource leaks are outside a pure model.
- Which exception ends a failed pass is observable only as a build failure. The model reports the first one met in artifact-then-line order. The per-class and per-artifact lemmas name it (`ClassCast` in `FindNameOutcomes`, `DescriptorUndecodable` in `ArtifactNamesSpec`); only the pass-level lemmas leave it unnamed.
- No dynamic class loading and no deduplication are modelled, because the code has neither: a class whose `getName` has no literal gives `null`, a missing class gives `""`, and repeated names stay in the list.

=== FILE: archives.dfy ===
/** Dependency artifacts, abstracted from the zip file system the plugin opens
    them with. */
module Archives {
  import opened ClassFiles

  /** What one archive entry yields to the reader applied to it.
      - `Text`: the entry decodes as UTF-8; `lines` is its content split into
        lines with the terminators removed. Read as a class, it stands for bytes
        `ClassReader` rejects with a runtime exception (text, an empty entry,
        a truncated class, a class version newer than ASM supports).
      - `Class`: the entry is a class file ASM parses. Its first bytes
        (0xCAFEBABE) are not UTF-8, so `Files.lines` cannot decode it.
      - `Unreadable`: the entry exists but opening it raises `IOException`. */
  datatype Entry =
    | Text(lines: seq<string>)
    | Class(cls: ClassFile)
    | Unreadable

  /** A resolved dependency file. `Archive` maps absolute entry paths
      ("/a/b/C.class") to entries; `OpenFails` is a file whose opening as a zip
      file system raises `IOException`, for example one the build may not read. */
  datatype Artifact = Archive(entries: map<string, Entry>) | OpenFails

  /** One line of a service descriptor, together with the archive it came from:
      the class it names is looked up in that archive only. */
  datatype Candidate = Candidate(entries: map<string, Entry>, className: string)
}

=== FILE: class_files.dfy ===
/** The parts of a parsed Java class file that the name finder looks at: its
    methods, each with a name, a descriptor (section 4.3.3 of the Java Virtual
    Machine Specification) and an instruction stream. */
module ClassFiles {

  /** The operand of a load-constant instruction. Strings are kept; every other
      kind (int, float, long, double, Type, Handle, dynamic constant) is one
      opaque case. */
  datatype Constant = StrConst(s: string) | NonStrConst

  /** `Ldc` stands for `ldc`, `ldc_w` and `ldc2_w` alike (section 6.5 of the
      Java Virtual Machine Specification); every other opcode is `Other`. */
  datatype Instruction = Ldc(constant: Constant) | Other

  /** A method declaration; `code` is empty for abstract and native methods. */
  datatype Method = Method(name: string, descriptor: string, code: seq<Instruction>)

  /** A class as ASM's `ClassReader` presents it: methods in class-file order. */
  datatype ClassFile = ClassFile(methods: seq<Method>)
}

=== FILE: emerald_plugin.dfy ===
/** `EmeraldPlugin`: finds javac plugins declared in dependency archives and
    turns their names into `-Xplugin:` compiler arguments. */
module EmeraldPlugin {
  import opened Results
  import opened ClassFiles
  import opened Archives
  import opened NameFinder

  /** The service-provider entry that declares javac plugins. */
  const Spi := "META-INF/services/com.sun.source.util.Plugin"
  /** The zip file system resolves the relative `Spi` against its root "/". */
  const SpiEntry := "/" + Spi
  const ClassSuffix := ".class"
  const XPlugin := "-Xplugin:"

  // ----- Candidate paths -----

  /** `replaceAll("\\.", "/")`: the pattern matches a literal dot and the
      replacement has no group references. */
  function ReplaceDots(s: string): (r: string)
    ensures |r| == |s|
    ensures forall i :: 0 <= i < |s| ==> r[i] == (if s[i] == '.' then '/' else s[i])
    decreases |s|
  {
    if |s| == 0 then []
    else [if s[0] == '.' then '/' else s[0]] + ReplaceDots(s[1..])
  }

  /** `getClassFilePath`: the absolute entry path of a fully-qualified class name. */
  function ClassFilePath(s: string): (p: string)
    ensures |p| == |s| + 7
    ensures p[0] == '/' && p[|p| - 6..] == ClassSuffix
    ensures '.' !in p[1..|p| - 6]
    ensures forall i :: 0 <= i < |s| ==> p[i + 1] == (if s[i] == '.' then '/' else s[i])
  {
    var r := ReplaceDots(s);
    var p := "/" + r + ClassSuffix;
    assert p[1..|p| - 6] == r;
    p
  }

  /** Reads a class name back from an entry path: the partner of `ClassFilePath`. */
  function ClassNameOf(p: string): string
    requires |p| >= 7
  {
    seq(|p| - 7, i requires 0 <= i < |p| - 7 => if p[i + 1] == '/' then '.' else p[i + 1])
  }

  /** A binary class name never contains '/', and for such names the entry path
      determines the name. */
  lemma ClassFilePathRoundTrip(s: string)
    requires '/' !in s
    ensures ClassNameOf(ClassFilePath(s)) == s
  {
  }

  /** The dot-to-slash translation forgets where the dots were: a name with '/'
      where another has '.' gets the same entry path. */
  lemma ClassFilePathCollides(s: string, t: string)
    requires |s| == |t|
    requires forall i :: 0 <= i < |s| ==> (s[i] == t[i] || (s[i] == '.' && t[i] == '/'))
    ensures ClassFilePath(s) == ClassFilePath(t)
  {
  }

  // ----- Reading entries -----

  /** `getServicesFile`: the descriptor entry, when the archive has one. */
  function ServicesFile(entries: map<string, Entry>): Option<Entry>
  {
    if SpiEntry in entries then Some(entries[SpiEntry]) else None
  }

  /** `toInputStream`: an open stream over the entry, or `null` when the entry
      is absent or opening it raises `IOException`. */
  function ToInputStream(entries: map<string, Entry>, path: string): Option<Entry>
  {
    if path in entries && entries[path] != Unreadable then Some(entries[path]) else None
  }

  /** `getPluginName`: "" for a `null` stream or an `IOException` while
      reading; otherwise whatever the finder leaves in `name`. */
  function GetPluginName(stream: Option<Entry>): Result<Option<string>, Failure> {
    match stream
    case None => Ok(Some(""))
    // `ToInputStream` never hands over an `Unreadable` entry; an `IOException`
    // while `ClassReader` reads the stream gives the same "".
    case Some(Unreadable) => Ok(Some(""))
    case Some(Class(cls)) => FindName(cls)
    case Some(Text(_)) => Err(ClassRejected)
  }

  /** The name one descriptor line leads to. */
  function CandidateName(c: Candidate): (r: Result<Option<string>, Failure>)
    ensures ClassFilePath(c.className) !in c.entries ==> r == Ok(Some(""))
    ensures ClassFilePath(c.className) in c.entries ==>
            match c.entries[ClassFilePath(c.className)]
            case Unreadable => r == Ok(Some(""))
            case Text(_) => r == Err(ClassRejected)
            case Class(cls) => r == FindName(cls)
  {
    GetPluginName(ToInputStream(c.entries, ClassFilePath(c.className)))
  }

  /** `getPluginStreams`: one stream per descriptor line, in line order. An
      `IOException` opening the descriptor gives no streams; a decoding failure
      escapes. */
  function PluginStreams(entries: map<string, Entry>, descriptor: Entry): Result<seq<Option<Entry>>, Failure>
  {
    match descriptor
    case Text(lines) =>
      Ok(seq(|lines|, i requires 0 <= i < |lines| => ToInputStream(entries, ClassFilePath(lines[i]))))
    case Unreadable => Ok([])
    case Class(_) => Err(DescriptorUndecodable)
  }

  /** `.map(this::getPluginName).forEach(names::add)`: the names of the
      streams in order, or the first exception. */
  function MapNames(streams: seq<Option<Entry>>): Result<seq<Option<string>>, Failure>
    decreases |streams|
  {
    if |streams| == 0 then Ok([])
    else match GetPluginName(streams[0])
      case Err(e) => Err(e)
      case Ok(n) =>
        match MapNames(streams[1..])
        case Err(e) => Err(e)
        case Ok(ns) => Ok([n] + ns)
  }

  /** One loop iteration: the names one artifact adds to the list. */
  function ArtifactNames(art: Artifact): Result<seq<Option<string>>, Failure> {
    match art
    case OpenFails => Ok([])
    case Archive(entries) =>
      match ServicesFile(entries)
      case None => Ok([])
      case Some(descriptor) =>
        match PluginStreams(entries, descriptor)
        case Err(e) => Err(e)
        case Ok(streams) => MapNames(streams)
  }

  /** The name-collecting loop over the resolved files, in order. */
  function CollectNames(arts: seq<Artifact>): Result<seq<Option<string>>, Failure>
    decreases |arts|
  {
    if |arts| == 0 then Ok([])
    else match ArtifactNames(arts[0])
      case Err(e) => Err(e)
      case Ok(ns) =>
        match CollectNames(arts[1..])
        case Err(e) => Err(e)
        case Ok(rest) => Ok(ns + rest)
  }

  /** The loop as written: `names.add` for each artifact, stopping at the first
      exception that escapes. */
  method CollectNamesLoop(arts: seq<Artifact>) returns (r: Result<seq<Option<string>>, Failure>)
    ensures r == CollectNames(arts)
  {
    var names: seq<Option<string>> := [];
    var k := 0;
    while k < |arts|
      invariant 0 <= k <= |arts|
      invariant CollectNames(arts[..k]) == Ok(names)
    {
      CollectNamesAppend(arts[..k], [arts[k]]);
      assert arts[..k + 1] == arts[..k] + [arts[k]];
      assert [arts[k]][1..] == [];
      match ArtifactNames(arts[k])
      case Err(e) =>
        CollectNamesAppend(arts[..k + 1], arts[k + 1..]);
        assert arts[..k + 1] + arts[k + 1..] == arts;
        return Err(e);
      case Ok(ns) =>
        assert ns + [] == ns;
        names := names + ns;
      k := k + 1;
    }
    assert arts[..k] == arts;
    return Ok(names);
  }

  /** Java string concatenation renders a `null` name as "null". */
  function NameText(name: Option<string>): string {
    match name
    case None => "null"
    case Some(s) => s
  }

  /** The arguments added to every `JavaCompile` task, one per name, in order. */
  function CompilerArgs(names: seq<Option<string>>): (args: seq<string>)
    ensures |args| == |names|
    ensures forall i :: 0 <= i < |names| ==> args[i] == XPlugin + NameText(names[i])
    decreases |names|
  {
    if |names| == 0 then []
    else [XPlugin + NameText(names[0])] + CompilerArgs(names[1..])
  }

  // ----- Descriptions independent of the loop -----

  /** The candidates an artifact declares: one per descriptor line, blank and
      comment-looking lines included. */
  function ArtifactCandidates(art: Artifact): seq<Candidate>
  {
    if art.Archive? && SpiEntry in art.entries && art.entries[SpiEntry].Text? then
      var lines := art.entries[SpiEntry].lines;
      seq(|lines|, i requires 0 <= i < |lines| => Candidate(art.entries, lines[i]))
    else []
  }

  /** Every candidate of every artifact, in artifact-then-line order. */
  function Candidates(arts: seq<Artifact>): seq<Candidate>
    decreases |arts|
  {
    if |arts| == 0 then [] else ArtifactCandidates(arts[0]) + Candidates(arts[1..])
  }

  /** The artifact's descriptor, if any, can be decoded as text. */
  predicate DescriptorDecodes(art: Artifact) {
    !(art.Archive? && SpiEntry in art.entries && art.entries[SpiEntry].Class?)
  }

  /** `names` holds, position by position, the name each candidate leads to. */
  predicate ResolvesTo(cs: seq<Candidate>, names: seq<Option<string>>) {
    |names| == |cs| && forall i :: 0 <= i < |cs| ==> CandidateName(cs[i]) == Ok(names[i])
  }

  // ----- Lemmas -----

  lemma ResolvesToConcat(c0: seq<Candidate>, n0: seq<Option<string>>, c1: seq<Candidate>, n1: seq<Option<string>>)
    requires ResolvesTo(c0, n0) && ResolvesTo(c1, n1)
    ensures ResolvesTo(c0 + c1, n0 + n1)
  {
  }

  lemma {:induction false} MapNamesSpec(streams: seq<Option<Entry>>)
    ensures MapNames(streams).Ok? <==> forall i :: 0 <= i < |streams| ==> GetPluginName(streams[i]).Ok?
    ensures MapNames(streams).Ok? ==>
              |MapNames(streams).value| == |streams| &&
              forall i :: 0 <= i < |streams| ==> MapNames(streams).value[i] == GetPluginName(streams[i]).value
    decreases |streams|
  {
    if |streams| > 0 {
      MapNamesSpec(streams[1..]);
      assert forall i :: 1 <= i < |streams| ==> streams[1..][i - 1] == streams[i];
    }
  }

  /** One artifact contributes one name per candidate, in line order, and
      fails exactly when its descriptor cannot be decoded or some candidate
      fails. An artifact whose opening raises `IOException`, or has no descriptor, or whose
      descriptor cannot be opened, contributes nothing. */
  lemma ArtifactNamesSpec(art: Artifact)
    ensures ArtifactNames(art).Ok? <==>
              DescriptorDecodes(art) &&
              forall i :: 0 <= i < |ArtifactCandidates(art)| ==> CandidateName(ArtifactCandidates(art)[i]).Ok?
    ensures ArtifactNames(art).Ok? ==> ResolvesTo(ArtifactCandidates(art), ArtifactNames(art).value)
    ensures art.OpenFails? ==> ArtifactNames(art) == Ok([])
    ensures art.Archive? && SpiEntry !in art.entries ==> ArtifactNames(art) == Ok([])
    ensures art.Archive? && SpiEntry in art.entries && art.entries[SpiEntry] == Unreadable ==>
              ArtifactNames(art) == Ok([])
    ensures art.Archive? && SpiEntry in art.entries && art.entries[SpiEntry].Class? ==>
              ArtifactNames(art) == Err(DescriptorUndecodable)
    ensures art.Archive? && SpiEntry in art.entries && art.entries[SpiEntry].Text? && ArtifactNames(art).Ok? ==>
              var lines := art.entries[SpiEntry].lines;
              |ArtifactNames(art).value| == |lines| &&
              forall i :: 0 <= i < |lines| ==>
                CandidateName(Candidate(art.entries, lines[i])) == Ok(ArtifactNames(art).value[i])
  {
    if art.Archive? && SpiEntry in art.entries && art.entries[SpiEntry].Text? {
      var streams := PluginStreams(art.entries, art.entries[SpiEntry]).value;
      MapNamesSpec(streams);
      var cs := ArtifactCandidates(art);
      assert forall i :: 0 <= i < |cs| ==> GetPluginName(streams[i]) == CandidateName(cs[i]);
    }
  }

  /** How many lines the readable text descriptors of `arts` hold in all. */
  function LineCount(arts: seq<Artifact>): nat
    decreases |arts|
  {
    if |arts| == 0 then 0
    else
      var art := arts[0];
      (if art.Archive? && SpiEntry in art.entries && art.entries[SpiEntry].Text?
       then |art.entries[SpiEntry].lines| else 0) + LineCount(arts[1..])
  }

  lemma {:induction false} CandidatesLength(arts: seq<Artifact>)
    ensures |Candidates(arts)| == LineCount(arts)
    decreases |arts|
  {
    if |arts| > 0 {
      CandidatesLength(arts[1..]);
    }
  }

  /** A successful pass yields exactly as many names as the text descriptors
      have lines, blank and comment-looking lines included. */
  lemma CollectNamesLength(arts: seq<Artifact>)
    ensures CollectNames(arts).Ok? ==> |CollectNames(arts).value| == LineCount(arts)
  {
    CollectNamesSpec(arts);
    CandidatesLength(arts);
  }

  lemma {:induction false} CollectNamesAppend(a: seq<Artifact>, b: seq<Artifact>)
    ensures CollectNames(a + b) ==
            match CollectNames(a)
            case Err(e) => Err(e)
            case Ok(x) =>
              match CollectNames(b)
              case Err(e) => Err(e)
              case Ok(y) => Ok(x + y)
    decreases |a|
  {
    if |a| == 0 {
      assert a + b == b;
      match CollectNames(b)
      case Err(_) =>
      case Ok(y) => assert [] + y == y;
    } else {
      assert (a + b)[0] == a[0];
      assert (a + b)[1..] == a[1..] + b;
      CollectNamesAppend(a[1..], b);
      match ArtifactNames(a[0])
      case Err(_) =>
      case Ok(ns) =>
        match CollectNames(a[1..])
        case Err(_) =>
        case Ok(x) =>
          match CollectNames(b)
          case Err(_) =>
          case Ok(y) => assert ns + (x + y) == (ns + x) + y;
    }
  }

  /** The final list holds exactly one name per candidate, in artifact-then-line
      order, so its length is the line count over every artifact with a
      readable descriptor; the pass fails exactly when some artifact fails. */
  lemma {:induction false} CollectNamesSpec(arts: seq<Artifact>)
    ensures CollectNames(arts).Ok? <==> forall k :: 0 <= k < |arts| ==> ArtifactNames(arts[k]).Ok?
    ensures CollectNames(arts).Ok? ==> ResolvesTo(Candidates(arts), CollectNames(arts).value)
    decreases |arts|
  {
    if |arts| > 0 {
      CollectNamesSpec(arts[1..]);
      ArtifactNamesSpec(arts[0]);
      assert forall k :: 1 <= k < |arts| ==> arts[1..][k - 1] == arts[k];
      if CollectNames(arts).Ok? {
        ResolvesToConcat(ArtifactCandidates(arts[0]), ArtifactNames(arts[0]).value,
                         Candidates(arts[1..]), CollectNames(arts[1..]).value);
      }
    }
  }

  /** An artifact that contributes nothing (its opening raises `IOException`, no descriptor, or
      a descriptor that cannot be opened) neither adds names nor stops the
      artifacts after it. */
  lemma SkippedArtifact(before: seq<Artifact>, art: Artifact, after: seq<Artifact>)
    requires ArtifactNames(art) == Ok([])
    ensures CollectNames(before + [art] + after) == CollectNames(before + after)
  {
    CollectNamesAppend(before + [art], after);
    CollectNamesAppend(before, [art]);
    CollectNamesAppend(before, after);
    assert [art][1..] == [];
    match CollectNames(before)
    case Err(_) =>
    case Ok(x) => assert x + ([] + []) == x;
  }

  /** Each argument is the fixed prefix followed by the name as Java prints it,
      so the name text can be read back from the argument. */
  lemma CompilerArgsRoundTrip(names: seq<Option<string>>, i: int)
    requires 0 <= i < |names|
    ensures CompilerArgs(names)[i][..|XPlugin|] == XPlugin
    ensures CompilerArgs(names)[i][|XPlugin|..] == NameText(names[i])
  {
  }

  /** Arguments keep the name list's order across any split of it. */
  lemma CompilerArgsAppend(a: seq<Option<string>>, b: seq<Option<string>>)
    ensures CompilerArgs(a + b) == CompilerArgs(a) + CompilerArgs(b)
  {
  }

  /** An unset (null) name and the literal "null" reach javac as the same
      argument, and a failed candidate reaches it as a bare "-Xplugin:". */
  lemma CollapsedNamesReachCompiler()
    ensures CompilerArgs([None]) == CompilerArgs([Some("null")]) == ["-Xplugin:null"]
    ensures CompilerArgs([Some("")]) == ["-Xplugin:"]
  {
    assert CompilerArgs([None])[0] == "-Xplugin:null";
    assert CompilerArgs([Some("null")])[0] == "-Xplugin:null";
    assert CompilerArgs([Some("")])[0] == "-Xplugin:";
  }

  /** A descriptor of one line contributes exactly that line's name. */
  lemma SingleLineDescriptor(entries: map<string, Entry>, line: string, name: Option<string>)
    requires SpiEntry in entries && entries[SpiEntry] == Text([line])
    requires CandidateName(Candidate(entries, line)) == Ok(name)
    ensures ArtifactNames(Archive(entries)) == Ok([name])
  {
    var art := Archive(entries);
    var cs := ArtifactCandidates(art);
    assert |cs| == 1 && cs[0] == Candidate(entries, line);
    ArtifactNamesSpec(art);
    var v := ArtifactNames(art).value;
    assert |v| == 1 && CandidateName(cs[0]) == Ok(v[0]);
    assert v == [name];
  }

  const PluginX: ClassFile := ClassFile([Method(GetName, StringGetter, [Ldc(StrConst("X")), Other])])
  const PluginY: ClassFile := ClassFile([Method(GetName, StringGetter, [Other, Other])])
  const ArtifactA := Archive(map[SpiEntry := Text(["p.X"]),
                                 "/p/X.class" := Class(PluginX)])
  const ArtifactB := Archive(map["/p/Z.class" := Class(PluginY)])
  const ArtifactC := Archive(map[SpiEntry := Text(["p.Y"]),
                                 "/p/Y.class" := Class(PluginY)])

  /** Three artifacts in order: A declares `p.X`, whose
      `getName` returns the literal "X"; B has no descriptor; C declares
      `p.Y`, whose `getName` computes its result without a
      literal. Nothing runs C's code: its name stays unset and reaches javac
      as "-Xplugin:null". */
  lemma ThreeArtifacts()
    ensures CollectNames([ArtifactA, ArtifactB, ArtifactC]) == Ok([Some("X"), None])
    ensures CompilerArgs([Some("X"), None]) == ["-Xplugin:X", "-Xplugin:null"]
  {
    ArtifactAContributesX();
    ArtifactBContributesNothing();
    ArtifactCContributesNull();
    CollectThree(ArtifactA, ArtifactB, ArtifactC, [Some("X")], [], [None]);
    assert [Some("X")] + [] + [None] == [Some("X"), None];
    assert CompilerArgs([Some("X"), None])[0] == "-Xplugin:X";
    assert CompilerArgs([Some("X"), None])[1] == "-Xplugin:null";
  }

  lemma CollectThree(a: Artifact, b: Artifact, c: Artifact,
                     na: seq<Option<string>>, nb: seq<Option<string>>, nc: seq<Option<string>>)
    requires ArtifactNames(a) == Ok(na) && ArtifactNames(b) == Ok(nb) && ArtifactNames(c) == Ok(nc)
    ensures CollectNames([a, b, c]) == Ok(na + nb + nc)
  {
    assert [a, b, c][1..] == [b, c];
    assert [b, c][1..] == [c];
    assert [c][1..] == [];
    assert nc + [] == nc;
    assert CollectNames([c]) == Ok(nc);
    assert CollectNames([b, c]) == Ok(nb + nc);
    assert na + (nb + nc) == na + nb + nc;
  }

  lemma ArtifactBContributesNothing()
    ensures ArtifactNames(ArtifactB) == Ok([])
  {
  }

  lemma ArtifactAContributesX()
    ensures ArtifactNames(ArtifactA) == Ok([Some("X")])
  {
    SingleLiteral([], "X", [Other], []);
    assert [] + [Method(GetName, StringGetter, [Ldc(StrConst("X"))] + [Other])] + [] ==
           [Method(GetName, StringGetter, [Ldc(StrConst("X"))] + [Other])];
    assert [Ldc(StrConst("X"))] + [Other] == [Ldc(StrConst("X")), Other];
    assert ClassFilePath("p.X") == "/p/X.class";
    SingleLineDescriptor(ArtifactA.entries, "p.X", Some("X"));
  }

  lemma ArtifactCContributesNull()
    ensures ArtifactNames(ArtifactC) == Ok([None])
  {
    FindNameOutcomes(PluginY);
    assert InspectedCode(PluginY.methods) == [Other, Other] + InspectedCode([]);
    assert ClassFilePath("p.Y") == "/p/Y.class";
    SingleLineDescriptor(ArtifactC.entries, "p.Y", None);
  }
}

=== FILE: name_finder.dfy ===
/** `NameFinder`: recovers a plugin's name statically from the last constant its
    `getName()` method loads, without running any of the class's code. */
module NameFinder {
  import opened Results
  import opened ClassFiles

  const GetName := "getName"
  /** No parameters, returns `java.lang.String`. */
  const StringGetter := "()Ljava/lang/String;"

  /** `visitMethod` hands out an instruction visitor only for a method whose name
      and descriptor both match exactly. */
  predicate Inspects(m: Method) {
    m.name == GetName && m.descriptor == StringGetter
  }

  /** The instruction visitor applied to one inspected method's code in order,
      starting from the finder's current `name`. Each `ldc` casts its constant
      to `String` and overwrites `name`; the cast fails on any other kind. */
  function VisitCode(code: seq<Instruction>, name: Option<string>): Result<Option<string>, Failure>
    decreases |code|
  {
    if |code| == 0 then Ok(name)
    else match code[0]
      case Ldc(StrConst(s)) => VisitCode(code[1..], Some(s))
      case Ldc(NonStrConst) => Err(ClassCast)
      case Other => VisitCode(code[1..], name)
  }

  /** `ClassReader.accept` visiting the methods in class-file order with one
      finder, so `name` carries over from one inspected method to the next. */
  function VisitMethods(methods: seq<Method>, name: Option<string>): Result<Option<string>, Failure>
    decreases |methods|
  {
    if |methods| == 0 then Ok(name)
    else if !Inspects(methods[0]) then VisitMethods(methods[1..], name)
    else match VisitCode(methods[0].code, name)
      case Err(e) => Err(e)
      case Ok(n) => VisitMethods(methods[1..], n)
  }

  /** The finder's `name` after a fresh `NameFinder` has visited `cls`:
      `Ok(None)` is the unset (null) name. */
  function FindName(cls: ClassFile): Result<Option<string>, Failure> {
    VisitMethods(cls.methods, None)
  }

  // ----- The code the finder sees, described without the visitor -----

  /** The instructions of every inspected method, in class-file order. */
  function InspectedCode(methods: seq<Method>): seq<Instruction>
    decreases |methods|
  {
    if |methods| == 0 then []
    else (if Inspects(methods[0]) then methods[0].code else []) + InspectedCode(methods[1..])
  }

  predicate LoadsNonString(code: seq<Instruction>) {
    exists i :: 0 <= i < |code| && code[i] == Ldc(NonStrConst)
  }

  predicate LoadsNothing(code: seq<Instruction>) {
    forall i :: 0 <= i < |code| ==> !code[i].Ldc?
  }

  /** Position `i` holds the last load-constant instruction of `code`. */
  predicate LastLdcAt(code: seq<Instruction>, i: int) {
    0 <= i < |code| && code[i].Ldc? && forall j :: i < j < |code| ==> !code[j].Ldc?
  }

  /** The position of the last load-constant instruction, or -1 if there is none. */
  function LastLdc(code: seq<Instruction>): (i: int)
    ensures -1 <= i < |code|
    ensures i >= 0 ==> LastLdcAt(code, i)
    ensures i < 0 ==> LoadsNothing(code)
    decreases |code|
  {
    if |code| == 0 then -1
    else if code[|code| - 1].Ldc? then |code| - 1
    else LastLdc(code[..|code| - 1])
  }

  // ----- Lemmas -----

  /** Visiting `a + b` is visiting `a`, then `b` from where `a` left `name`. */
  lemma {:induction false} VisitCodeAppend(a: seq<Instruction>, b: seq<Instruction>, name: Option<string>)
    ensures VisitCode(a + b, name) ==
            match VisitCode(a, name)
            case Err(e) => Err(e)
            case Ok(n) => VisitCode(b, n)
    decreases |a|
  {
    if |a| == 0 {
      assert a + b == b;
    } else {
      assert (a + b)[0] == a[0];
      assert (a + b)[1..] == a[1..] + b;
      match a[0]
      case Ldc(StrConst(s)) => VisitCodeAppend(a[1..], b, Some(s));
      case Ldc(NonStrConst) =>
      case Other => VisitCodeAppend(a[1..], b, name);
    }
  }

  /** The visitor fails exactly when the code loads a non-String constant, and
      the failure is the cast's. */
  lemma {:induction false} VisitCodeFails(code: seq<Instruction>, name: Option<string>)
    ensures VisitCode(code, name).Err? <==> LoadsNonString(code)
    ensures VisitCode(code, name).Err? ==> VisitCode(code, name).error == ClassCast
    decreases |code|
  {
    if |code| > 0 {
      var next := if code[0].Ldc? && code[0].constant.StrConst? then Some(code[0].constant.s) else name;
      if code[0] != Ldc(NonStrConst) {
        VisitCodeFails(code[1..], next);
        if LoadsNonString(code) {
          var i :| 0 <= i < |code| && code[i] == Ldc(NonStrConst);
          assert code[1..][i - 1] == Ldc(NonStrConst);
        }
        if LoadsNonString(code[1..]) {
          var i :| 0 <= i < |code[1..]| && code[1..][i] == Ldc(NonStrConst);
          assert code[i + 1] == Ldc(NonStrConst);
        }
      }
    }
  }

  /** Code without a load-constant instruction leaves `name` as it was. */
  lemma {:induction false} VisitCodeKeeps(code: seq<Instruction>, name: Option<string>)
    requires LoadsNothing(code)
    ensures VisitCode(code, name) == Ok(name)
    decreases |code|
  {
    if |code| > 0 {
      assert !code[0].Ldc?;
      assert LoadsNothing(code[1..]) by {
        forall j | 0 <= j < |code[1..]| ensures !code[1..][j].Ldc? {
          assert code[1..][j] == code[j + 1];
        }
      }
      VisitCodeKeeps(code[1..], name);
    }
  }

  /** When nothing fails, the last load-constant instruction decides the name. */
  lemma VisitCodeLast(code: seq<Instruction>, name: Option<string>, i: int, s: string)
    requires !LoadsNonString(code)
    requires LastLdcAt(code, i) && code[i] == Ldc(StrConst(s))
    ensures VisitCode(code, name) == Ok(Some(s))
  {
    var before, rest := code[..i], code[i + 1..];
    assert code == before + ([code[i]] + rest);
    VisitCodeAppend(before, [code[i]] + rest, name);
    assert !LoadsNonString(before) by {
      forall k | 0 <= k < |before| ensures before[k] != Ldc(NonStrConst) {
        assert before[k] == code[k];
      }
    }
    VisitCodeFails(before, name);
    assert ([code[i]] + rest)[1..] == rest;
    assert LoadsNothing(rest) by {
      forall j | 0 <= j < |rest| ensures !rest[j].Ldc? {
        assert rest[j] == code[i + 1 + j];
      }
    }
    VisitCodeKeeps(rest, Some(s));
  }

  lemma {:induction false} InspectedCodeAppend(a: seq<Method>, b: seq<Method>)
    ensures InspectedCode(a + b) == InspectedCode(a) + InspectedCode(b)
    decreases |a|
  {
    if |a| == 0 {
      assert a + b == b;
    } else {
      assert (a + b)[0] == a[0];
      assert (a + b)[1..] == a[1..] + b;
      InspectedCodeAppend(a[1..], b);
    }
  }

  /** Only inspected methods matter: visiting the methods is visiting the
      concatenated code of the inspected ones. */
  lemma {:induction false} VisitMethodsFlattens(methods: seq<Method>, name: Option<string>)
    ensures VisitMethods(methods, name) == VisitCode(InspectedCode(methods), name)
    decreases |methods|
  {
    if |methods| > 0 {
      var rest := InspectedCode(methods[1..]);
      if !Inspects(methods[0]) {
        assert InspectedCode(methods) == [] + rest;
        assert [] + rest == rest;
        VisitMethodsFlattens(methods[1..], name);
      } else {
        VisitCodeAppend(methods[0].code, rest, name);
        match VisitCode(methods[0].code, name)
        case Err(e) =>
        case Ok(n) => VisitMethodsFlattens(methods[1..], n);
      }
    }
  }

  /** The outcome of visiting one run of code: the cast's failure when a
      non-String constant is loaded, else the string of the last load, else the
      name it started from. */
  lemma {:induction false} VisitCodeOutcome(code: seq<Instruction>, name: Option<string>)
    ensures VisitCode(code, name).Err? <==> LoadsNonString(code)
    ensures VisitCode(code, name).Err? ==> VisitCode(code, name).error == ClassCast
    ensures LoadsNothing(code) ==> VisitCode(code, name) == Ok(name)
    ensures !LoadsNonString(code) && LastLdc(code) >= 0 ==>
              VisitCode(code, name) == Ok(Some(code[LastLdc(code)].constant.s))
  {
    VisitCodeFails(code, name);
    var i := LastLdc(code);
    if i < 0 {
      VisitCodeKeeps(code, name);
    } else if !LoadsNonString(code) {
      assert code[i] != Ldc(NonStrConst);
      VisitCodeLast(code, name, i, code[i].constant.s);
    }
  }

  /** The three outcomes of the finder: the cast fails exactly when an
      inspected method loads a non-String constant, and the name stays unset
      exactly when no inspected method (or none at all) loads a constant. */
  lemma FindNameOutcomes(cls: ClassFile)
    ensures FindName(cls).Err? <==> LoadsNonString(InspectedCode(cls.methods))
    ensures FindName(cls).Err? ==> FindName(cls).error == ClassCast
    ensures FindName(cls) == Ok(None) <==> LoadsNothing(InspectedCode(cls.methods))
  {
    VisitMethodsFlattens(cls.methods, None);
    VisitCodeOutcome(InspectedCode(cls.methods), None);
  }

  /** The finder reports `s` exactly when nothing fails and the last constant
      the inspected code loads is the string `s`: later loads overwrite
      earlier ones. */
  lemma FindNameLiteral(cls: ClassFile, s: string)
    ensures FindName(cls) == Ok(Some(s)) <==>
            && !LoadsNonString(InspectedCode(cls.methods))
            && exists i :: LastLdcAt(InspectedCode(cls.methods), i)
                        && InspectedCode(cls.methods)[i] == Ldc(StrConst(s))
  {
    var code := InspectedCode(cls.methods);
    VisitMethodsFlattens(cls.methods, None);
    VisitCodeOutcome(code, None);
    var i := LastLdc(code);
    if i >= 0 && !LoadsNonString(code) {
      assert code[i] == Ldc(StrConst(code[i].constant.s));
      assert forall j :: LastLdcAt(code, j) ==> j == i;
      if code[i].constant.s == s {
        assert LastLdcAt(code, i) && code[i] == Ldc(StrConst(s));
      }
    }
  }

  /** A method that is not `getName()Ljava/lang/String;` (another name, or
      `getName` with parameters or another return type) is ignored as if it
      were absent. */
  lemma IgnoredMethod(before: seq<Method>, m: Method, after: seq<Method>)
    requires !Inspects(m)
    ensures FindName(ClassFile(before + [m] + after)) == FindName(ClassFile(before + after))
  {
    InspectedCodeAppend(before + [m], after);
    InspectedCodeAppend(before, [m]);
    InspectedCodeAppend(before, after);
    assert [m][1..] == [];
    assert InspectedCode([m]) == [] + InspectedCode([]);
    assert InspectedCode(before) + [] == InspectedCode(before);
    VisitMethodsFlattens(before + [m] + after, None);
    VisitMethodsFlattens(before + after, None);
  }

  /** Instructions other than load-constant never change the outcome, wherever
      they sit in an inspected method. */
  lemma OtherIgnored(before: seq<Instruction>, after: seq<Instruction>, name: Option<string>)
    ensures VisitCode(before + [Other] + after, name) == VisitCode(before + after, name)
  {
    assert before + [Other] + after == before + ([Other] + after);
    VisitCodeAppend(before, [Other] + after, name);
    VisitCodeAppend(before, after, name);
    assert ([Other] + after)[1..] == after;
  }

  /** Methods none of which is inspected contribute no code. */
  lemma {:induction false} NoInspected(methods: seq<Method>)
    requires forall k :: 0 <= k < |methods| ==> !Inspects(methods[k])
    ensures InspectedCode(methods) == []
    decreases |methods|
  {
    if |methods| > 0 {
      assert forall k :: 0 <= k < |methods[1..]| ==> methods[1..][k] == methods[k + 1];
      NoInspected(methods[1..]);
    }
  }

  /** A `getName()Ljava/lang/String;` whose body is a single literal load
      followed by non-load instructions (`ldc "x"; areturn`) yields exactly that
      literal, whatever other methods (constructors, helpers) surround it. */
  lemma SingleLiteral(before: seq<Method>, s: string, rest: seq<Instruction>, after: seq<Method>)
    requires forall k :: 0 <= k < |before| ==> !Inspects(before[k])
    requires forall k :: 0 <= k < |after| ==> !Inspects(after[k])
    requires LoadsNothing(rest)
    ensures FindName(ClassFile(before + [Method(GetName, StringGetter, [Ldc(StrConst(s))] + rest)] + after))
            == Ok(Some(s))
  {
    var code := [Ldc(StrConst(s))] + rest;
    var m := Method(GetName, StringGetter, code);
    var methods := before + [m] + after;
    NoInspected(before);
    NoInspected(after);
    InspectedCodeAppend(before + [m], after);
    InspectedCodeAppend(before, [m]);
    assert InspectedCode([m]) == code + InspectedCode([]);
    assert InspectedCode(methods) == code by {
      assert [] + (code + []) + [] == code;
    }
    assert !LoadsNonString(code) by {
      forall k | 0 <= k < |code| ensures code[k] != Ldc(NonStrConst) {
        if k > 0 {
          assert code[k] == rest[k - 1];
        }
      }
    }
    assert LastLdcAt(code, 0) by {
      forall j | 0 < j < |code| ensures !code[j].Ldc? {
        assert code[j] == rest[j - 1];
      }
    }
    FindNameLiteral(ClassFile(methods), s);
  }
}

=== FILE: results.dfy ===
/** Values standing in for Java's `null` and for the exceptions that escape
    the plugin-name collection. */
module Results {

  /** `None` stands for a Java `null` reference. */
  datatype Option<+T> = None | Some(value: T)

  /** A step that either returns a value or raises an exception nobody catches. */
  datatype Result<+T, +E> = Ok(value: T) | Err(error: E)

  /** The unchecked exceptions that can escape `EmeraldPlugin`'s name-collecting
      loop. Its `catch` clauses only handle `IOException`, so each of these ends
      the whole pass. */
  datatype Failure =
    | ClassCast              // `(String) value` in `visitLdcInsn` met a non-String constant
    | ClassRejected          // ASM's `ClassReader` refused bytes that are not a class file
    | DescriptorUndecodable  // `Files.lines` raised `UncheckedIOException` decoding the descriptor
}
